=== FILE: README.md ===
# Livestock symptom matcher — a Dafny model

This project models the diagnosis engine behind the `/predict/` endpoint of a
bilingual (Tamil/English) livestock and pet symptom service. A request names an
animal, optionally a breed, age and gender, and up to three symptoms typed or
spoken in Tamil, Tanglish (Tamil in Latin letters) or English. The service:

1. resolves each symptom field through a Tamil/Tanglish-to-English dictionary
   (an unknown word passes through unchanged, an empty field is dropped);
2. keeps the table rows of the requested species (case-insensitively), then
   narrows them by breed, age and gender in that order, each refinement applied
   only when it leaves at least one row;
3. scores every remaining row by counting the (input symptom, row symptom cell)
   pairs in which the lowered input is a substring of the lowered cell, and
   picks the first row with the highest score;
4. replies "not in the database" when no row of the species exists, "symptoms
   did not match" when the best score is zero, and otherwise renders the row's
   disease, medicine, care advice and vet flag in Tamil and joins them into one
   spoken summary sentence.

Modules, one per stage: `Options` (optional values), `Text` (Python's
`str.lower`, substring test and `str.join`), `Lexicon` (the dictionaries and
symptom resolution), `Table` (a row of the disease table), `Filtering` (the
filter chain), `Scoring` (scores and the arg-max loop), `Formatting` (reply
payloads and the summary) and `Predict` (the whole handler).

Table cells that pandas reads as missing are `None`. Their treatment follows
the code, not the cell: `str()` prints them as `"nan"` (breed, age, symptom and
remedy cells), while lowering with `.str.lower()` keeps them missing so they
never equal anything (species and gender). A consequence is that a missing
symptom cell takes part in scoring as the text `"nan"`.

Points of the code worth stating plainly, because they are easy to assume
otherwise:
- symptom resolution is an exact, case-sensitive `dict.get` per field; there
  is no free-text pass and no fuzzy or similarity matching of symptoms;
- scoring and the species, breed and gender filters compare lowered text on
  both sides, but the age filter compares the stringified cell with the field
  exactly, without lowering either;
- the success reply carries `medicine` and a `care` list and has no `remedies`
  field; only the failure replies carry an (empty) `remedies` list.

## Model

| member | source | states |
|---|---|---|
| Text.Contains | backend/main.py:334 | Python's `needle in hay`: true exactly when the needle starts at some position of the haystack |
| Text.Join | backend/main.py:371 | `sep.join`: no items give the empty text, one item gives itself, and otherwise the text begins with the first item and ends with the last |
| Text.Lower | backend/main.py:290 | lowering keeps the length and maps every character through ASCII case folding |
| Text.LowerIdempotent | backend/main.py:290 | lowering twice is lowering once, so comparing lowered values ignores case consistently |
| Text.JoinAppend | backend/main.py:371 | `", ".join` puts the separator exactly once between neighbouring items: joining two lists is joining each and gluing them with one separator |
| Lexicon.Get | backend/main.py:283-285 | `dict.get(key, key)`: the mapped value for a key of the dictionary, the key itself otherwise |
| Lexicon.TranslateToTamil | backend/main.py:211-212 | a known English word gets its Tamil value, any other text is returned unchanged, and a changed result always comes from the dictionary |
| Lexicon.GetIdempotent | backend/main.py:95-110 | in a dictionary whose values map to themselves (as "fever" and "cough" do), resolving a resolved word changes nothing |
| Lexicon.ClosedFromEntries | backend/main.py:62-118 | a dictionary literal in which every entry keyed by another entry's value maps to that same value is closed |
| Lexicon.SymptomsClosed | backend/main.py:62-118 | the sample symptom dictionary is closed |
| Lexicon.DetectedResolved | backend/main.py:283-287 | with a closed dictionary every detected symptom is already resolved: looking it up again leaves it unchanged |
| Lexicon.SampleDetectedResolved | backend/main.py:283-287 | every symptom the sample dictionary detects is a fixed point of it |
| Lexicon.FromEntries | backend/main.py:62-118 | the keys of a dictionary literal are exactly the keys of its entries, and each key maps to the value of one of its entries |
| Lexicon.FromEntriesLastWins | backend/main.py:98-110 | a key listed several times in a dictionary literal maps to the value of its last entry |
| Lexicon.DuplicateKeyHarmless | backend/main.py:98-110 | the twice-listed key "irumal" resolves to "cough" |
| Lexicon.Resolve | backend/main.py:283-285 | an absent or empty symptom field resolves to nothing; a supplied one to its dictionary value if it is a key, otherwise to itself |
| Lexicon.Detected | backend/main.py:283-287 | the detected symptoms are non-empty, at most one per field, and a word is detected exactly when some field resolves to it |
| Lexicon.DetectedAppend | backend/main.py:287 | resolution works field by field and keeps field order: the symptoms of two groups of fields are those of the first followed by those of the second |
| Lexicon.DetectedCanonical | backend/main.py:283-287 | input already written in canonical English is detected unchanged: the result is exactly the supplied fields in order |
| Lexicon.DetectedCount | backend/main.py:283-287 | when no dictionary value is empty, every supplied field yields exactly one detected symptom |
| Lexicon.TanglishPair | backend/main.py:95-110 | the spoken pair "kaaitsel", "irumal" resolves to fever then cough, and an empty third field is dropped |
| Lexicon.DetectedPair | backend/main.py:283-287 | two supplied fields followed by an empty one detect exactly their two resolutions, in field order |
| Table.Str | backend/main.py:360-365 | `str()` of a cell: its text, or "nan" for a missing value |
| Filtering.Matches | backend/main.py:290-303 | a missing species or gender cell never matches; a missing breed cell matches only a breed that lowers to "nan"; a missing age cell matches only the age "nan" |
| Filtering.CaseOfRequest | backend/main.py:290-303 | species, breed and gender ignore the letter case of the requested value, while age does not ("3Y" misses an age "3y" that "3y" selects) |
| Filtering.Keep | backend/main.py:290 | the mask selection keeps exactly the rows passing the test, in table order (an order-preserving sub-list of its input), never more rows than it was given |
| Filtering.KeepAppend | backend/main.py:290 | selection keeps table order: it distributes over concatenation of row lists |
| Filtering.SubListTrans | backend/main.py:290-305 | dropping rows in two successive steps keeps the table order of what is left |
| Filtering.Refine | backend/main.py:292-295 | a guarded refinement is exactly the mask selection of the matching rows when one exists and leaves the rows unchanged when none matches; either way it keeps table order and is empty only when its input is |
| Filtering.RefineAll | backend/main.py:292-305 | a chain of guarded refinements keeps an order-preserving sub-list of its input, empties nothing, and is the identity when no criterion matches any row |
| Filtering.RefineAllSplit | backend/main.py:292-305 | refining by a list is refining by its first part and then by the rest |
| Filtering.RefineAllNarrows | backend/main.py:292-305 | refinements never bring back a row: a property all input rows have, all output rows have |
| Filtering.RefinementSticks | backend/main.py:292-305 | a refinement that matched some row when its turn came holds of every finally remaining row |
| Filtering.OptionalCriteria | backend/main.py:292-305 | a breed, age or gender refinement appears exactly when that field is supplied, carries the field's value, never a species one, at most three, and always in the order breed, age, gender |
| Filtering.Candidates | backend/main.py:290-305 | the candidates are rows of the requested species in table order (a sub-list of the species rows and of the table), and are empty exactly when the table has no row of that species |
| Filtering.SpeciesOnlyFallback | backend/main.py:292-305 | when no supplied breed, age or gender occurs among the species rows, the candidates are exactly the species rows |
| Filtering.BreedHonoured | backend/main.py:292-295 | a supplied breed that some row of the species has holds of every candidate |
| Filtering.AgeHonoured | backend/main.py:297-300 | a supplied age that some row left by the species and breed filters has holds of every candidate |
| Filtering.GenderHonoured | backend/main.py:302-305 | a supplied gender that some row left by the species, breed and age filters has holds of every candidate |
| Filtering.AgeFallsBack | backend/main.py:297-300 | an age that no row of the species and breed has is dropped, leaving the species-and-breed rows |
| Scoring.RowSymptoms | backend/main.py:326-330 | a row contributes exactly three symptom texts: the lowered `str()` of its first, second and third symptom cells, in that order |
| Scoring.Hits | backend/main.py:333-335 | the inner loop's count is exactly the number of slots the lowered input symptom is a substring of; hence at most the number of slots, and positive exactly when some slot is hit |
| Scoring.Score | backend/main.py:324-335 | a row's score is exactly the number of (input symptom, slot) position pairs in which the lowered symptom is a substring of the slot; hence at most three per input symptom (zero for none) and positive exactly when some pair hits |
| Scoring.ScoreAppend | backend/main.py:332-335 | the score is additive over input symptoms |
| Scoring.Scores | backend/main.py:324-336 | one score per candidate row, in row order |
| Scoring.FirstMaxUnique | backend/main.py:337-339 | the first position of the maximum is unique, so the choice is deterministic |
| Scoring.ScanStep | backend/main.py:337-339 | one loop iteration keeps "best is the first maximum so far and max_score is its score" |
| Scoring.Scan | backend/main.py:321-339 | the loop ends with the first maximum of all rows chosen, or with nothing chosen and −1 when there are no rows |
| Scoring.SelectBest | backend/main.py:321-339 | with no rows nothing is chosen and max_score is −1; otherwise a row is always chosen, it is the first with the highest score, and max_score is its non-negative score |
| Scoring.NoOverlapIffZero | backend/main.py:341 | the best score is zero exactly when no candidate shares a symptom with the input |
| Scoring.MissingCellsReadNan | backend/main.py:326-335 | a row whose three symptom cells are all missing still scores 3 for the input "an", because each missing cell reads "nan" |
| Scoring.NoSymptomsChooseFirst | backend/main.py:321-339 | with no input symptoms the first row is chosen with score zero |
| Formatting.FailurePayload | backend/main.py:307-318 | a failure reply has the "unknown" disease, no remedies, "-" for recovery days and vet flag, the message with its gloss as error, and speaks the Tamil message |
| Formatting.NotFound | backend/main.py:307-318 | the "not in the database" reply: a failure with the placeholder fields, the Tamil message glossed "(Animal/Details not found)" as error, and that message spoken |
| Formatting.NoMatch | backend/main.py:341-353 | the "symptoms did not match" reply: a failure with the placeholder fields, the Tamil message glossed "(No matching disease found)" as error, and that message spoken |
| Formatting.FailuresDistinct | backend/main.py:341-353 | the "not found" and "no match" replies differ |
| Formatting.Medicine | backend/main.py:360-361 | a medicine cell that prints as "nan" becomes "-", any other is rendered in Tamil, and an unknown medicine passes through |
| Formatting.CareItems | backend/main.py:364-369 | care items are the usable care cells (neither "nan" nor empty) in column order, each rendered in Tamil, none when both are missing |
| Formatting.CareText | backend/main.py:371 | the care text is "-" without items, the item itself for one, and the two items separated by ", " for two |
| Formatting.Summary | backend/main.py:377-381 | the sentence is exactly the five labelled fields laid end to end at consecutive positions in the order disease, medicine, care, recovery days, vet flag |
| Formatting.Format | backend/main.py:356-395 | the success reply carries the Tamil disease, medicine, care items, recovery days and Tamil vet flag, its full text is the summary of exactly those fields, and that text is what is spoken |
| Predict.Symptoms | backend/main.py:283-287 | each field resolved in the order symptom1, symptom2, symptom3, empty ones dropped: at most three detected symptoms, none empty |
| Predict.Predict | backend/main.py:283-395 | the reply keeps the transcript, the only failure replies are "not found" and "no match" with their placeholder fields, and "not found" comes exactly when the table has no row of the species |
| Predict.PredictNoMatch | backend/main.py:341-353 | the "no match" reply comes exactly when the species is known and no candidate shares a symptom with the input |
| Predict.PredictDiagnosis | backend/main.py:341-395 | a diagnosis always renders the first best candidate, whose score is positive |
| Predict.DiagnosisIff | backend/main.py:307-395 | a diagnosis comes exactly when the species is known and some remaining candidate shares a symptom with the input |
| Predict.NoSymptomsNoDiagnosis | backend/main.py:283-353 | with no symptom field supplied the reply is always a failure |
| Predict.CowCandidates | backend/main.py:290-305 | filtering a one-cow table by "cow" with no optional field leaves that cow row |
| Predict.CowWithFever | backend/main.py:283-395 | a cow with fever, asked of a table holding one cow row whose symptom cell reads "fever, lethargy", is answered with exactly that row's rendering |
| Predict.DogNotInTable | backend/main.py:290-318 | a species the table lacks gets the "not in the database" reply |

## Left out

- Audio upload, WebM-to-WAV conversion and Google speech recognition (backend/main.py:236-280): external I/O; the transcript is a parameter of `Predict.Predict`.
- Speech synthesis `generate_audio_response` (backend/main.py:198-209) and the `/text-to-speech/` endpoint (backend/main.py:214-219): external I/O; the synthesiser is a parameter returning an optional audio handle. The handle is taken as a function of the spoken text, whereas the real function names a fresh file with `uuid4` on every call (backend/main.py:202), so two calls never return the same handle; equalities between replies (as in `Predict.CowWithFever` and `Predict.DogNotInTable`) hold only up to the audio handle.
- Dataset loading and column renaming with pandas (backend/main.py:29-59): the table is given as a sequence of rows with every renamed column present, so `row.get` defaults for absent columns are not modelled; cells are taken as already-stringified text (a numeric age column prints as pandas would, which the model does not reproduce).
- The full literal dictionaries (backend/main.py:62-195): only a few sample entries are written out; all lemmas except the sample scenarios hold for any dictionary.
- The outer catch-all exception handler (backend/main.py:397-410), which would fire only on faults such as a missing column or a non-text gender column: not modelled.
- FastAPI setup, CORS, static file mounts and the server entry point (backend/main.py:18-27, 412-426): plumbing.
- Missing disease or vet-flag cells: the model takes them as the text "nan". In the real handler the `disease` and `vet_required` fields of the reply would then hold a float NaN rather than a string (only `full_text` prints it as "nan"), and such a reply would most likely fail to render as JSON outside the handler's `try`; the model does not represent that.
- Text.Lower: lowers ASCII letters only; Python's `str.lower` also lowers other alphabets, which Tamil (having no case) does not need.
- The browser client, the test scripts that need a live server, and the offline CSV inspection scripts: outside the engine.

=== FILE: filtering.dfy ===
/** The filter chain of `predict`: a mandatory species filter, then breed,
    age and gender refinements, each applied only when it leaves at least
    one row. */
module Filtering {
  import opened Options
  import opened Text
  import opened Table

  /** One attribute test on a row. */
  datatype Criterion =
    | Species(animal: string)
    | Breed(breed: string)
    | Age(age: string)
    | Gender(gender: string)

  /** Whether a row passes a criterion. Species and gender compare lowered
      cells, and a missing cell never matches (lowering keeps NaN). Breed
      stringifies first, so a missing breed reads "nan". Age compares the
      stringified cell exactly, without lowering. */
  predicate Matches(c: Criterion, r: Record)
    ensures c.Species? && r.animal.None? ==> !Matches(c, r)
    ensures c.Gender? && r.gender.None? ==> !Matches(c, r)
    ensures c.Breed? && r.breed.None? ==> (Matches(c, r) <==> Lower(c.breed) == "nan")
    ensures c.Age? && r.age.None? ==> (Matches(c, r) <==> c.age == "nan")
  {
    match c
    case Species(a) => r.animal.Some? && Lower(r.animal.value) == Lower(a)
    case Breed(b) => Lower(Str(r.breed)) == Lower(b)
    case Age(a) => Str(r.age) == a
    case Gender(g) => r.gender.Some? && Lower(r.gender.value) == Lower(g)
  }

  /** `a` is `b` with some elements dropped and the rest in their original
      order: each element of `a` is matched, left to right, with a later
      element of `b` than the one before it. */
  predicate SubList<T(==)>(a: seq<T>, b: seq<T>)
    decreases |b|
  {
    if |b| == 0 then |a| == 0
    else (|a| > 0 && a[0] == b[0] && SubList(a[1..], b[1..])) || SubList(a, b[1..])
  }

  /** Every list is a sub-list of itself. */
  lemma {:induction false} SubListRefl<T>(a: seq<T>)
    ensures SubList(a, a)
    decreases |a|
  {
    if |a| > 0 {
      SubListRefl(a[1..]);
    }
  }

  /** Dropping elements twice is dropping elements once. */
  lemma {:induction false} SubListTrans<T>(a: seq<T>, b: seq<T>, c: seq<T>)
    requires SubList(a, b) && SubList(b, c)
    ensures SubList(a, c)
    decreases |c|
  {
    if |c| > 0 {
      if SubList(b, c[1..]) {
        SubListTrans(a, b, c[1..]);
      } else {
        assert |b| > 0 && b[0] == c[0] && SubList(b[1..], c[1..]);
        if |a| > 0 && a[0] == b[0] && SubList(a[1..], b[1..]) {
          SubListTrans(a[1..], b[1..], c[1..]);
        } else {
          SubListTrans(a, b[1..], c[1..]);
        }
      }
    }
  }

  /** The boolean-mask selection `rows[mask]`: the passing rows, in order. */
  function Keep(rows: seq<Record>, c: Criterion): (r: seq<Record>)
    ensures |r| <= |rows|
    ensures forall x :: x in r <==> x in rows && Matches(c, x)
    ensures SubList(r, rows)
    decreases |rows|
  {
    if |rows| == 0 then []
    else
      var rest := Keep(rows[1..], c);
      assert forall x :: x in rows <==> x == rows[0] || x in rows[1..];
      if Matches(c, rows[0]) then
        assert ([rows[0]] + rest)[1..] == rest;
        [rows[0]] + rest
      else rest
  }

  /** Selection keeps the table's order: it distributes over concatenation. */
  lemma {:induction false} KeepAppend(a: seq<Record>, b: seq<Record>, c: Criterion)
    ensures Keep(a + b, c) == Keep(a, c) + Keep(b, c)
    decreases |a|
  {
    if |a| > 0 {
      assert (a + b)[0] == a[0];
      assert (a + b)[1..] == a[1..] + b;
      KeepAppend(a[1..], b, c);
    } else {
      assert a + b == b;
    }
  }

  /** One guarded refinement: `if not filtered.empty: rows = filtered`. */
  function Refine(rows: seq<Record>, c: Criterion): (r: seq<Record>)
    ensures forall x :: x in r ==> x in rows
    ensures |r| > 0 <==> |rows| > 0
    ensures (exists x :: x in rows && Matches(c, x)) ==> forall x :: x in r <==> x in rows && Matches(c, x)
    ensures (forall x :: x in rows ==> !Matches(c, x)) ==> r == rows
    ensures (exists x :: x in rows && Matches(c, x)) ==> r == Keep(rows, c)
    ensures SubList(r, rows)
  {
    var filtered := Keep(rows, c);
    if |filtered| > 0 then
      assert filtered[0] in filtered;
      filtered
    else
      SubListRefl(rows);
      rows
  }

  /** The refinements applied left to right. */
  function RefineAll(rows: seq<Record>, cs: seq<Criterion>): (r: seq<Record>)
    ensures forall x :: x in r ==> x in rows
    ensures |r| > 0 <==> |rows| > 0
    ensures (forall i, x :: 0 <= i < |cs| && x in rows ==> !Matches(cs[i], x)) ==> r == rows
    ensures SubList(r, rows)
    decreases |cs|
  {
    if |cs| == 0 then
      SubListRefl(rows);
      rows
    else
      var next := Refine(rows, cs[0]);
      var r := RefineAll(next, cs[1..]);
      assert forall i :: 1 <= i < |cs| ==> cs[1..][i - 1] == cs[i];
      SubListTrans(r, next, rows);
      r
  }

  /** Refining by a list is refining by its front part and then by the rest. */
  lemma {:induction false} RefineAllSplit(rows: seq<Record>, cs: seq<Criterion>, n: nat)
    requires n <= |cs|
    ensures RefineAll(rows, cs) == RefineAll(RefineAll(rows, cs[..n]), cs[n..])
    decreases n
  {
    if n > 0 {
      assert cs[..n][0] == cs[0];
      assert cs[..n][1..] == cs[1..][..n - 1];
      assert cs[n..] == cs[1..][n - 1..];
      RefineAllSplit(Refine(rows, cs[0]), cs[1..], n - 1);
    }
  }

  /** Every row left after a refinement list satisfies all of its criteria. */
  lemma {:induction false} RefineAllNarrows(rows: seq<Record>, cs: seq<Criterion>, c: Criterion)
    requires forall x :: x in rows ==> Matches(c, x)
    ensures forall x :: x in RefineAll(rows, cs) ==> Matches(c, x)
  {
  }

  /** A refinement that matched when its turn came sticks: every finally
      remaining row satisfies it, whatever the later refinements did. */
  lemma {:induction false} RefinementSticks(rows: seq<Record>, cs: seq<Criterion>, n: nat)
    requires n < |cs|
    requires exists x :: x in RefineAll(rows, cs[..n]) && Matches(cs[n], x)
    ensures forall x :: x in RefineAll(rows, cs) ==> Matches(cs[n], x)
  {
    RefineAllSplit(rows, cs, n);
    var before := RefineAll(rows, cs[..n]);
    var after := Refine(before, cs[n]);
    assert cs[n..][0] == cs[n];
    assert cs[n..][1..] == cs[n + 1..];
    assert RefineAll(before, cs[n..]) == RefineAll(after, cs[n + 1..]);
    RefineAllNarrows(after, cs[n + 1..], cs[n]);
  }

  /** Position of a criterion in the handler's fixed order: species, breed, age, gender. */
  function Rank(c: Criterion): nat {
    match c
    case Species(_) => 0
    case Breed(_) => 1
    case Age(_) => 2
    case Gender(_) => 3
  }

  /** The optional refinements a request asks for: one per supplied field,
      carrying that field's value, in the fixed order breed, age, gender. */
  function OptionalCriteria(breed: Option<string>, age: Option<string>, gender: Option<string>): (cs: seq<Criterion>)
    ensures |cs| <= 3
    ensures forall i :: 0 <= i < |cs| ==> !cs[i].Species?
    ensures forall i :: 0 <= i < |cs| && cs[i].Breed? ==> Supplied(breed) && cs[i].breed == breed.value
    ensures forall i :: 0 <= i < |cs| && cs[i].Age? ==> Supplied(age) && cs[i].age == age.value
    ensures forall i :: 0 <= i < |cs| && cs[i].Gender? ==> Supplied(gender) && cs[i].gender == gender.value
    ensures Supplied(breed) <==> exists i :: 0 <= i < |cs| && cs[i].Breed?
    ensures Supplied(age) <==> exists i :: 0 <= i < |cs| && cs[i].Age?
    ensures Supplied(gender) <==> exists i :: 0 <= i < |cs| && cs[i].Gender?
    ensures forall i, j :: 0 <= i < j < |cs| ==> Rank(cs[i]) < Rank(cs[j])
  {
    var b := if Supplied(breed) then [Breed(breed.value)] else [];
    var a := if Supplied(age) then [Age(age.value)] else [];
    var g := if Supplied(gender) then [Gender(gender.value)] else [];
    var cs := b + a + g;
    assert Supplied(breed) ==> cs[0] == Breed(breed.value);
    assert Supplied(age) ==> cs[|b|] == Age(age.value);
    assert Supplied(gender) ==> cs[|b| + |a|] == Gender(gender.value);
    cs
  }

  /** `animal_df` at the end of step 2 of `predict`. */
  function Candidates(rows: seq<Record>, animal: string, breed: Option<string>, age: Option<string>, gender: Option<string>): (r: seq<Record>)
    ensures forall x :: x in r ==> x in rows && Matches(Species(animal), x)
    ensures |r| == 0 <==> forall x :: x in rows ==> !Matches(Species(animal), x)
    ensures SubList(r, Keep(rows, Species(animal))) && SubList(r, rows)
  {
    var species := Keep(rows, Species(animal));
    assert |species| > 0 ==> species[0] in species;
    var r := RefineAll(species, OptionalCriteria(breed, age, gender));
    SubListTrans(r, species, rows);
    r
  }

  /** When none of the supplied breed, age and gender values occurs among the
      rows of the species, the optional filters all fall away and the
      candidates are exactly the species rows. */
  lemma SpeciesOnlyFallback(rows: seq<Record>, animal: string, breed: Option<string>, age: Option<string>, gender: Option<string>)
    requires Supplied(breed) ==> forall x :: x in rows && Matches(Species(animal), x) ==> !Matches(Breed(breed.value), x)
    requires Supplied(age) ==> forall x :: x in rows && Matches(Species(animal), x) ==> !Matches(Age(age.value), x)
    requires Supplied(gender) ==> forall x :: x in rows && Matches(Species(animal), x) ==> !Matches(Gender(gender.value), x)
    ensures Candidates(rows, animal, breed, age, gender) == Keep(rows, Species(animal))
  {
  }

  /** A supplied breed that some row of the species has is always honoured:
      every candidate has that breed. */
  lemma BreedHonoured(rows: seq<Record>, animal: string, breed: Option<string>, age: Option<string>, gender: Option<string>)
    requires Supplied(breed)
    requires exists x :: x in rows && Matches(Species(animal), x) && Matches(Breed(breed.value), x)
    ensures forall x :: x in Candidates(rows, animal, breed, age, gender) ==> Matches(Breed(breed.value), x)
  {
    var cs := OptionalCriteria(breed, age, gender);
    assert cs[..0] == [];
    RefinementSticks(Keep(rows, Species(animal)), cs, 0);
  }

  /** A supplied age that some row left by the species and breed filters
      has is always honoured: every candidate has that age. */
  lemma AgeHonoured(rows: seq<Record>, animal: string, breed: Option<string>, age: Option<string>, gender: Option<string>)
    requires Supplied(age)
    requires exists x :: x in Candidates(rows, animal, breed, None, None) && Matches(Age(age.value), x)
    ensures forall x :: x in Candidates(rows, animal, breed, age, gender) ==> Matches(Age(age.value), x)
  {
    var cs := OptionalCriteria(breed, age, gender);
    var n := if Supplied(breed) then 1 else 0;
    assert cs[..n] == OptionalCriteria(breed, None, None);
    assert cs[n] == Age(age.value);
    RefinementSticks(Keep(rows, Species(animal)), cs, n);
  }

  /** A supplied gender that some row left by the species, breed and age
      filters has is always honoured: every candidate has that gender. */
  lemma GenderHonoured(rows: seq<Record>, animal: string, breed: Option<string>, age: Option<string>, gender: Option<string>)
    requires Supplied(gender)
    requires exists x :: x in Candidates(rows, animal, breed, age, None) && Matches(Gender(gender.value), x)
    ensures forall x :: x in Candidates(rows, animal, breed, age, gender) ==> Matches(Gender(gender.value), x)
  {
    var cs := OptionalCriteria(breed, age, gender);
    var n := |cs| - 1;
    assert cs[..n] == OptionalCriteria(breed, age, None);
    assert cs[n] == Gender(gender.value);
    RefinementSticks(Keep(rows, Species(animal)), cs, n);
  }

  /** An age no row of the breed has is ignored: with breed and age
      supplied and no gender, the candidates are the rows of that species
      and breed. */
  lemma AgeFallsBack(rows: seq<Record>, animal: string, breed: string, age: string)
    requires breed != "" && age != ""
    requires exists x :: x in rows && Matches(Species(animal), x) && Matches(Breed(breed), x)
    requires forall x :: x in rows && Matches(Species(animal), x) && Matches(Breed(breed), x) ==> !Matches(Age(age), x)
    ensures Candidates(rows, animal, Some(breed), Some(age), None) == Keep(Keep(rows, Species(animal)), Breed(breed))
  {
    var species := Keep(rows, Species(animal));
    var cs := OptionalCriteria(Some(breed), Some(age), None);
    assert cs == [Breed(breed), Age(age)];
    var byBreed := Keep(species, Breed(breed));
    assert exists x :: x in species && Matches(Breed(breed), x);
    assert Refine(species, Breed(breed)) == byBreed;
    assert Refine(byBreed, Age(age)) == byBreed;
    assert cs[1..][1..] == [];
  }

  /** Species, breed and gender ignore the letter case of the requested
      value; the age does not: "3Y" does not select a row whose age is "3y",
      although "JERSEY" selects a row whose breed is "Jersey". */
  lemma CaseOfRequest(r: Record, v: string)
    ensures Matches(Species(v), r) <==> Matches(Species(Lower(v)), r)
    ensures Matches(Breed(v), r) <==> Matches(Breed(Lower(v)), r)
    ensures Matches(Gender(v), r) <==> Matches(Gender(Lower(v)), r)
    ensures r.age == Some("3y") ==> !Matches(Age("3Y"), r) && Matches(Age("3y"), r)
    ensures r.breed == Some("Jersey") ==> Matches(Breed("JERSEY"), r)
  {
    LowerIdempotent(v);
    assert Lower("JERSEY") == Lower("Jersey");
    assert "3y"[1] != "3Y"[1];
  }
}

=== FILE: formatting.dfy ===
/** Step 4 of `predict` and its two failure replies: the payload shapes, the
    Tamil rendering of the chosen row and the spoken summary sentence. */
module Formatting {
  import opened Options
  import opened Text
  import opened Table
  import opened Lexicon

  /** The JSON object `predict` returns. Every reply carries the transcript
      and the audio handle the speech synthesiser gave back (`None` when it
      failed). */
  datatype Payload =
    | Failure(transcribedText: string, error: string, disease: string, remedies: seq<string>,
              recoveryDays: string, vetRequired: string, audioUrl: Option<string>)
    | Diagnosis(transcribedText: string, disease: string, medicine: string, care: seq<string>,
                recoveryDays: string, vetRequired: string, fullText: string, audioUrl: Option<string>)

  /** Disease placeholder of both failure replies: "unknown". */
  const Unknown: string := "தெரியவில்லை"
  /** "This animal is not in the database." */
  const NotFoundMessage: string := "இந்த விலங்கு தரவுத்தளத்தில் இல்லை"
  /** "The symptoms did not match." */
  const NoMatchMessage: string := "அறிகுறிகள் பொருந்தவில்லை"

  /** The fixed failure reply: placeholders everywhere, the Tamil message
      spoken, and the message with an English gloss as the error. */
  function FailurePayload(transcribed: string, message: string, gloss: string,
                          synth: string -> Option<string>): (p: Payload)
    ensures p.Failure? && p.transcribedText == transcribed
    ensures p.disease == Unknown && p.remedies == [] && p.recoveryDays == "-" && p.vetRequired == "-"
    ensures p.error == message + " (" + gloss + ")"
    ensures p.audioUrl == synth(message)
  {
    Failure(transcribed, message + " (" + gloss + ")", Unknown, [], "-", "-", synth(message))
  }

  /** The reply when no row is left after filtering. */
  function NotFound(transcribed: string, synth: string -> Option<string>): (p: Payload)
    ensures p.Failure? && p.transcribedText == transcribed
    ensures p.disease == Unknown && p.remedies == [] && p.recoveryDays == "-" && p.vetRequired == "-"
    ensures p.error == NotFoundMessage + " (Animal/Details not found)"
    ensures p.audioUrl == synth(NotFoundMessage)
  {
    FailurePayload(transcribed, NotFoundMessage, "Animal/Details not found", synth)
  }

  /** The reply when rows are left but none shares a symptom with the input. */
  function NoMatch(transcribed: string, synth: string -> Option<string>): (p: Payload)
    ensures p.Failure? && p.transcribedText == transcribed
    ensures p.disease == Unknown && p.remedies == [] && p.recoveryDays == "-" && p.vetRequired == "-"
    ensures p.error == NoMatchMessage + " (No matching disease found)"
    ensures p.audioUrl == synth(NoMatchMessage)
  {
    FailurePayload(transcribed, NoMatchMessage, "No matching disease found", synth)
  }

  /** The two failure replies are told apart by their error text. */
  lemma FailuresDistinct(transcribed: string, synth: string -> Option<string>)
    ensures NotFound(transcribed, synth) != NoMatch(transcribed, synth)
  {
    assert NotFoundMessage[0] != NoMatchMessage[0];
    assert NotFound(transcribed, synth).error[0] != NoMatch(transcribed, synth).error[0];
  }

  /** The medicine cell as spoken: "-" for a missing (or literally "nan")
      medicine, otherwise its Tamil rendering. */
  function Medicine(toTamil: Dict, r: Record): (m: string)
    ensures Str(r.remedy1) == "nan" ==> m == "-"
    ensures Str(r.remedy1) != "nan" ==> m == TranslateToTamil(toTamil, Str(r.remedy1))
    ensures r.remedy1.Some? && r.remedy1.value != "nan" && r.remedy1.value !in toTamil ==> m == r.remedy1.value
  {
    var medicine := Str(r.remedy1);
    if medicine != "nan" then TranslateToTamil(toTamil, medicine) else "-"
  }

  /** A care cell worth saying: neither missing, nor "nan", nor empty. */
  predicate Usable(cell: Option<string>) {
    Str(cell) != "nan" && Str(cell) != ""
  }

  /** `care_items`: the usable care cells among `care_1`, `care_2`, in that
      order, each rendered in Tamil. */
  function CareItems(toTamil: Dict, r: Record): (items: seq<string>)
    ensures |items| == (if Usable(r.remedy2) then 1 else 0) + (if Usable(r.remedy3) then 1 else 0)
    ensures Usable(r.remedy2) ==> items[0] == TranslateToTamil(toTamil, Str(r.remedy2))
    ensures Usable(r.remedy3) ==> items[|items| - 1] == TranslateToTamil(toTamil, Str(r.remedy3))
    ensures r.remedy2.None? && r.remedy3.None? ==> items == []
  {
    (if Usable(r.remedy2) then [TranslateToTamil(toTamil, Str(r.remedy2))] else [])
    + (if Usable(r.remedy3) then [TranslateToTamil(toTamil, Str(r.remedy3))] else [])
  }

  /** `care_ta`: the items separated by ", ", or "-" when there are none. */
  function CareText(items: seq<string>): (t: string)
    ensures items == [] ==> t == "-"
    ensures |items| == 1 ==> t == items[0]
    ensures |items| == 2 ==> t == items[0] + ", " + items[1]
  {
    assert |items| == 2 ==> Join(items, ", ") == items[0] + ", " + items[1] by {
      if |items| == 2 {
        assert items == [items[0]] + [items[1]];
        JoinAppend([items[0]], [items[1]], ", ");
      }
    }
    if |items| > 0 then Join(items, ", ") else "-"
  }

  const DiseaseLabel: string := "உங்கள் விலங்கிற்கு இருக்கும் நோய்: "
  const MedicineLabel: string := "மருந்து (Medicine): "
  const CareLabel: string := "பராமரிப்பு (Care): "
  const RecoveryLabel: string := "முழுமையாக குணமாகும் நாட்கள்: "
  const VetLabel: string := "மருத்துவர் தேவை: "

  /** `result_text`: the five fields, each after its Tamil label and followed
      by a full stop, at consecutive positions in the fixed order disease,
      medicine, care, recovery days, vet flag, with nothing else in the
      sentence. */
  function Summary(disease: string, medicine: string, care: string, days: string, vet: string): (s: string)
    ensures var a := DiseaseLabel + disease + ". ";
            var b := MedicineLabel + medicine + ". ";
            var c := CareLabel + care + ". ";
            var d := RecoveryLabel + days + ". ";
            var e := VetLabel + vet + ".";
            && |s| == |a| + |b| + |c| + |d| + |e|
            && OccursAt(s, a, 0)
            && OccursAt(s, b, |a|)
            && OccursAt(s, c, |a| + |b|)
            && OccursAt(s, d, |a| + |b| + |c|)
            && OccursAt(s, e, |a| + |b| + |c| + |d|)
  {
    var a := DiseaseLabel + disease + ". ";
    var b := MedicineLabel + medicine + ". ";
    var c := CareLabel + care + ". ";
    var d := RecoveryLabel + days + ". ";
    var e := VetLabel + vet + ".";
    var s := a + b + c + d + e;
    assert s[..|a|] == a;
    assert s[|a|..|a| + |b|] == b;
    assert s[|a| + |b|..|a| + |b| + |c|] == c;
    assert s[|a| + |b| + |c|..|a| + |b| + |c| + |d|] == d;
    assert s[|a| + |b| + |c| + |d|..] == e;
    s
  }

  /** The success reply for the chosen row. Its spoken sentence is built
      from the very fields the reply carries, and that sentence is what is
      sent to the speech synthesiser. */
  function Format(toTamil: Dict, r: Record, transcribed: string, synth: string -> Option<string>): (p: Payload)
    ensures p.Diagnosis? && p.transcribedText == transcribed
    ensures p.disease == TranslateToTamil(toTamil, r.disease)
    ensures p.medicine == Medicine(toTamil, r) && p.care == CareItems(toTamil, r)
    ensures p.recoveryDays == r.recoveryDays
    ensures p.vetRequired == TranslateToTamil(toTamil, r.vetRequired)
    ensures p.fullText == Summary(p.disease, p.medicine, CareText(p.care), p.recoveryDays, p.vetRequired)
    ensures p.audioUrl == synth(p.fullText)
  {
    var disease := TranslateToTamil(toTamil, r.disease);
    var medicine := Medicine(toTamil, r);
    var care := CareItems(toTamil, r);
    var vet := TranslateToTamil(toTamil, r.vetRequired);
    var text := Summary(disease, medicine, CareText(care), r.recoveryDays, vet);
    Diagnosis(transcribed, disease, medicine, care, r.recoveryDays, vet, text, synth(text))
  }
}

=== FILE: lexicon.dfy ===
/** The two bilingual dictionaries of the service: Tamil and Tanglish symptom
    words to English symptom names, and English disease, medicine, care and
    yes/no words to Tamil. Both are used through `dict.get(key, key)`, so a
    word the dictionary does not know passes through unchanged. */
module Lexicon {
  import opened Options

  type Dict = map<string, string>

  /** `d.get(key, key)`. */
  function Get(d: Dict, key: string): (r: string)
    ensures key in d ==> r == d[key]
    ensures key !in d ==> r == key
  {
    if key in d then d[key] else key
  }

  /** `translate_to_tamil`: the Tamil rendering of a known English word, and
      any other text unchanged. */
  function TranslateToTamil(toTamil: Dict, text: string): (r: string)
    ensures text in toTamil ==> r == toTamil[text]
    ensures text !in toTamil ==> r == text
    ensures r != text ==> text in toTamil && toTamil[text] == r
  {
    Get(toTamil, text)
  }

  /** A dictionary is closed when every value it produces is either not a
      key or a key that maps to itself, as "fever" and "cough" do in the
      symptom dictionary. */
  ghost predicate Closed(d: Dict) {
    forall k :: k in d ==> d[k] !in d || d[d[k]] == d[k]
  }

  /** Looking a word up in a closed dictionary twice gives the same answer
      as looking it up once: resolved symptom names are fixed points. */
  lemma GetIdempotent(d: Dict, key: string)
    requires Closed(d)
    ensures Get(d, Get(d, key)) == Get(d, key)
  {
    if key in d {
      assert d[key] !in d || d[d[key]] == d[key];
    }
  }

  /** The dictionary a Python `{k1: v1, k2: v2, ...}` literal builds: entries
      are inserted left to right, so a repeated key keeps its last value. */
  function FromEntries(entries: seq<(string, string)>): (d: Dict)
    ensures forall k :: k in d <==> exists i :: 0 <= i < |entries| && entries[i].0 == k
    ensures forall k :: k in d ==> exists i :: 0 <= i < |entries| && entries[i] == (k, d[k])
    decreases |entries|
  {
    if |entries| == 0 then map[]
    else
      var init := entries[..|entries| - 1];
      var last := entries[|entries| - 1];
      var d := FromEntries(init);
      assert forall i :: 0 <= i < |init| ==> init[i] == entries[i];
      d[last.0 := last.1]
  }

  /** Entry `i` is the last one of `entries` whose key is `k`. */
  ghost predicate LastEntryFor(entries: seq<(string, string)>, k: string, i: int) {
    0 <= i < |entries| && entries[i].0 == k
    && forall j :: i < j < |entries| ==> entries[j].0 != k
  }

  /** Last registration wins: a key of the literal maps to the value of its
      last entry, whatever earlier entries said. */
  lemma {:induction false} FromEntriesLastWins(entries: seq<(string, string)>, k: string, i: int)
    requires LastEntryFor(entries, k, i)
    ensures k in FromEntries(entries)
    ensures FromEntries(entries)[k] == entries[i].1
    decreases |entries|
  {
    var init := entries[..|entries| - 1];
    var last := entries[|entries| - 1];
    if i < |entries| - 1 {
      assert last.0 != k;
      assert LastEntryFor(init, k, i) by {
        forall j | i < j < |init| ensures init[j].0 != k {
          assert init[j] == entries[j];
        }
      }
      FromEntriesLastWins(init, k, i);
    }
  }

  /** A few entries of `tamil_to_english_symptoms`, in source order,
      including the key "irumal" that the literal lists twice. */
  const SymptomEntries: seq<(string, string)> := [
    ("காய்ச்சல்", "fever"),
    ("இருமல்", "cough"),
    ("வாந்தி", "vomiting"),
    ("kaaichal", "fever"),
    ("kaaitsel", "fever"),
    ("fever", "fever"),
    ("irumal", "cough"),
    ("vanthi", "vomiting"),
    ("cough", "cough"),
    ("irumal", "cough"),
    ("kan", "redness")
  ]

  /** A literal is closed when every entry whose key is another entry's
      value maps to that same value. */
  lemma ClosedFromEntries(entries: seq<(string, string)>)
    requires forall i, j :: 0 <= i < |entries| && 0 <= j < |entries| && entries[j].0 == entries[i].1 ==>
      entries[j].1 == entries[i].1
    ensures Closed(FromEntries(entries))
  {
    var d := FromEntries(entries);
    forall k | k in d ensures d[k] !in d || d[d[k]] == d[k] {
      var i :| 0 <= i < |entries| && entries[i] == (k, d[k]);
      if d[k] in d {
        var j :| 0 <= j < |entries| && entries[j] == (d[k], d[d[k]]);
      }
    }
  }

  /** The sample symptom dictionary is closed: its English values are either
      no key at all or keys mapping to themselves. */
  lemma SymptomsClosed()
    ensures Closed(FromEntries(SymptomEntries))
  {
    ClosedFromEntries(SymptomEntries);
  }

  /** A few entries of `english_to_tamil_output`. */
  const OutputEntries: seq<(string, string)> := [
    ("Viral Fever", "வைரஸ் காய்ச்சல் (Viral Fever)"),
    ("Respiratory Infection", "சுவாசத் தொற்று (Respiratory Infection)"),
    ("Antipyretic injection", "காய்ச்சல் ஊசி"),
    ("Clean water", "சுத்தமான நீர் கொடுக்கவும்"),
    ("Consult vet", "மருத்துவரை அணுகவும்"),
    ("Yes", "ஆம்"),
    ("No", "இல்லை")
  ]

  /** The duplicated "irumal" entry is harmless: its last entry says "cough". */
  lemma DuplicateKeyHarmless()
    ensures Get(FromEntries(SymptomEntries), "irumal") == "cough"
  {
    FromEntriesLastWins(SymptomEntries, "irumal", 9);
  }

  /** One symptom form field: `tamil_to_english_symptoms.get(s, s) if s else None`.
      An absent or empty field resolves to nothing. */
  function Resolve(toEnglish: Dict, slot: Option<string>): (r: Option<string>)
    ensures r.Some? <==> slot.Some? && slot.value != ""
    ensures r.Some? && slot.value in toEnglish ==> r.value == toEnglish[slot.value]
    ensures r.Some? && slot.value !in toEnglish ==> r.value == slot.value
  {
    if slot.Some? && slot.value != "" then Some(Get(toEnglish, slot.value)) else None
  }

  /** `detected_symptoms`: the resolved slots, in slot order, keeping only
      the non-empty ones. */
  function Detected(toEnglish: Dict, slots: seq<Option<string>>): (r: seq<string>)
    ensures |r| <= |slots|
    ensures forall x :: x in r ==> x != ""
    ensures forall x :: x in r <==>
      exists i :: 0 <= i < |slots| && Resolve(toEnglish, slots[i]) == Some(x) && x != ""
    decreases |slots|
  {
    if |slots| == 0 then []
    else
      var head := Resolve(toEnglish, slots[0]);
      var rest := Detected(toEnglish, slots[1..]);
      assert forall i :: 1 <= i < |slots| ==> slots[1..][i - 1] == slots[i];
      if head.Some? && head.value != "" then [head.value] + rest else rest
  }

  /** Resolution is slot by slot: the detected symptoms of two groups of
      slots are those of the first group followed by those of the second. */
  lemma {:induction false} DetectedAppend(toEnglish: Dict, a: seq<Option<string>>, b: seq<Option<string>>)
    ensures Detected(toEnglish, a + b) == Detected(toEnglish, a) + Detected(toEnglish, b)
    decreases |a|
  {
    if |a| > 0 {
      assert (a + b)[0] == a[0];
      assert (a + b)[1..] == a[1..] + b;
      DetectedAppend(toEnglish, a[1..], b);
    } else {
      assert a + b == b;
    }
  }

  /** With a closed dictionary every detected symptom is already resolved:
      looking it up again leaves it unchanged. */
  lemma DetectedResolved(toEnglish: Dict, slots: seq<Option<string>>)
    requires Closed(toEnglish)
    ensures forall x :: x in Detected(toEnglish, slots) ==> Get(toEnglish, x) == x
  {
    forall x | x in Detected(toEnglish, slots) ensures Get(toEnglish, x) == x {
      var i :| 0 <= i < |slots| && Resolve(toEnglish, slots[i]) == Some(x) && x != "";
      GetIdempotent(toEnglish, slots[i].value);
    }
  }

  /** The supplied (present, non-empty) slot values, in slot order. */
  function Present(slots: seq<Option<string>>): (r: seq<string>)
    ensures |r| <= |slots|
    decreases |slots|
  {
    if |slots| == 0 then []
    else if slots[0].Some? && slots[0].value != "" then [slots[0].value] + Present(slots[1..])
    else Present(slots[1..])
  }

  /** Every supplied slot value is already canonical: the dictionary leaves it as it is. */
  ghost predicate AllCanonical(toEnglish: Dict, slots: seq<Option<string>>) {
    forall i :: 0 <= i < |slots| && slots[i].Some? && slots[i].value != "" ==>
      Get(toEnglish, slots[i].value) == slots[i].value
  }

  /** Resolution is the identity on input already written in canonical
      English: the detected symptoms are exactly the supplied slots. */
  lemma {:induction false} DetectedCanonical(toEnglish: Dict, slots: seq<Option<string>>)
    requires AllCanonical(toEnglish, slots)
    ensures Detected(toEnglish, slots) == Present(slots)
    decreases |slots|
  {
    if |slots| > 0 {
      assert AllCanonical(toEnglish, slots[1..]) by {
        forall i | 0 <= i < |slots[1..]| && slots[1..][i].Some? && slots[1..][i].value != ""
          ensures Get(toEnglish, slots[1..][i].value) == slots[1..][i].value
        {
          assert slots[1..][i] == slots[i + 1];
        }
      }
      DetectedCanonical(toEnglish, slots[1..]);
    }
  }

  /** When no dictionary value is empty, every supplied slot yields exactly
      one detected symptom. */
  lemma {:induction false} DetectedCount(toEnglish: Dict, slots: seq<Option<string>>)
    requires forall k :: k in toEnglish ==> toEnglish[k] != ""
    ensures |Detected(toEnglish, slots)| == |Present(slots)|
    decreases |slots|
  {
    if |slots| > 0 {
      DetectedCount(toEnglish, slots[1..]);
    }
  }

  /** A Tanglish pair as spoken: "kaaitsel" and "irumal" resolve to fever
      and cough, in that order, and an empty third slot is dropped. */
  lemma TanglishPair()
    ensures Detected(FromEntries(SymptomEntries), [Some("kaaitsel"), Some("irumal"), Some("")])
         == ["fever", "cough"]
  {
    FromEntriesLastWins(SymptomEntries, "kaaitsel", 4);
    FromEntriesLastWins(SymptomEntries, "irumal", 9);
    DetectedPair(FromEntries(SymptomEntries), "kaaitsel", "irumal");
  }

  /** Two supplied fields followed by an empty one detect the two
      resolutions, in field order. */
  lemma DetectedPair(d: Dict, a: string, b: string)
    requires a != "" && b != "" && Get(d, a) != "" && Get(d, b) != ""
    ensures Detected(d, [Some(a), Some(b), Some("")]) == [Get(d, a), Get(d, b)]
  {
    var slots: seq<Option<string>> := [Some(a), Some(b), Some("")];
    assert slots[1..] == [Some(b), Some("")];
    assert slots[1..][1..] == [Some("")];
    assert [Some("")][1..] == [];
    assert Detected(d, [Some("")]) == [];
    assert Detected(d, [Some(b), Some("")]) == [Get(d, b)];
  }

  /** Symptoms the sample dictionary detects are fixed points of it. */
  lemma SampleDetectedResolved(slots: seq<Option<string>>)
    ensures forall x :: x in Detected(FromEntries(SymptomEntries), slots) ==>
      Get(FromEntries(SymptomEntries), x) == x
  {
    SymptomsClosed();
    DetectedResolved(FromEntries(SymptomEntries), slots);
  }
}

=== FILE: options.dfy ===
/** Optional values: a form field that was not sent, or a table cell that pandas reads as NaN. */
module Options {

  datatype Option<+T> = None | Some(value: T) {

    /** The value held, or `default` when there is none. */
    function GetOr(default: T): T {
      match this
      case Some(v) => v
      case None => default
    }
  }
}

=== FILE: predict.dfy ===
/** The `/predict/` handler without transport and audio: resolve the symptom
    fields, filter the table, pick the best row and format the reply. */
module Predict {
  import opened Options
  import opened Text
  import opened Table
  import opened Lexicon
  import opened Filtering
  import opened Scoring
  import opened Formatting

  /** The form fields of a request; `animal` is required, the rest optional. */
  datatype Query = Query(
    animal: string,
    breed: Option<string>,
    age: Option<string>,
    gender: Option<string>,
    symptom1: Option<string>,
    symptom2: Option<string>,
    symptom3: Option<string>
  )

  /** The data the handler reads: the loaded table and the two dictionaries. */
  datatype Db = Db(rows: seq<Record>, toEnglish: Dict, toTamil: Dict)

  /** `detected_symptoms` for a request. */
  function Symptoms(db: Db, q: Query): (ds: seq<string>)
    ensures |ds| <= 3
    ensures forall x :: x in ds ==> x != ""
    ensures ds == Detected(db.toEnglish, [q.symptom1]) + Detected(db.toEnglish, [q.symptom2])
                  + Detected(db.toEnglish, [q.symptom3])
  {
    var slots := [q.symptom1, q.symptom2, q.symptom3];
    assert slots == [q.symptom1] + ([q.symptom2] + [q.symptom3]);
    DetectedAppend(db.toEnglish, [q.symptom1], [q.symptom2] + [q.symptom3]);
    DetectedAppend(db.toEnglish, [q.symptom2], [q.symptom3]);
    Detected(db.toEnglish, slots)
  }

  /** `animal_df` after the filter chain. */
  function CandidatesOf(db: Db, q: Query): seq<Record> {
    Candidates(db.rows, q.animal, q.breed, q.age, q.gender)
  }

  /** The table has at least one row of the requested species. */
  ghost predicate SpeciesKnown(db: Db, q: Query) {
    exists x :: x in db.rows && Matches(Species(q.animal), x)
  }

  /** The reply of `predict`, given the transcript of any uploaded audio and
      the speech synthesiser. */
  function Predict(db: Db, q: Query, transcribed: string, synth: string -> Option<string>): (p: Payload)
    ensures p.transcribedText == transcribed
    ensures p.Failure? ==> p.disease == Unknown && p.remedies == [] && p.recoveryDays == "-" && p.vetRequired == "-"
    ensures p == NotFound(transcribed, synth) <==> !SpeciesKnown(db, q)
    ensures p.Failure? ==> p == NotFound(transcribed, synth) || p == NoMatch(transcribed, synth)
  {
    FailuresDistinct(transcribed, synth);
    var cands := CandidatesOf(db, q);
    if |cands| == 0 then NotFound(transcribed, synth)
    else
      var choice := SelectBest(cands, Symptoms(db, q));
      if choice.best.None? || choice.maxScore == 0 then NoMatch(transcribed, synth)
      else Format(db.toTamil, cands[choice.best.value], transcribed, synth)
  }

  /** The "symptoms did not match" reply comes exactly when the species is
      known and no remaining candidate shares a symptom with the input. */
  lemma PredictNoMatch(db: Db, q: Query, transcribed: string, synth: string -> Option<string>)
    ensures Predict(db, q, transcribed, synth) == NoMatch(transcribed, synth) <==>
      SpeciesKnown(db, q) && forall x :: x in CandidatesOf(db, q) ==> !Overlaps(Symptoms(db, q), x)
  {
    FailuresDistinct(transcribed, synth);
    var cands := CandidatesOf(db, q);
    var ds := Symptoms(db, q);
    var p := Predict(db, q, transcribed, synth);
    if |cands| == 0 {
      assert p == NotFound(transcribed, synth);
    } else {
      var choice := SelectBest(cands, ds);
      if choice.maxScore == 0 {
        assert p == NoMatch(transcribed, synth);
      } else {
        assert p.Diagnosis?;
      }
      NoOverlapIffZero(cands, ds);
      assert (forall x :: x in cands ==> !Overlaps(ds, x))
         <==> (forall j :: 0 <= j < |cands| ==> !Overlaps(ds, cands[j]));
    }
  }

  /** A diagnosis names the first best candidate, whose score is positive,
      and renders that row. */
  lemma PredictDiagnosis(db: Db, q: Query, transcribed: string, synth: string -> Option<string>)
    ensures Predict(db, q, transcribed, synth).Diagnosis? ==> exists k ::
              && FirstBest(CandidatesOf(db, q), Symptoms(db, q), k)
              && Score(Symptoms(db, q), CandidatesOf(db, q)[k]) > 0
              && Predict(db, q, transcribed, synth) == Format(db.toTamil, CandidatesOf(db, q)[k], transcribed, synth)
  {
    var cands := CandidatesOf(db, q);
    if |cands| > 0 {
      var k := SelectBest(cands, Symptoms(db, q)).best.value;
      assert FirstBest(cands, Symptoms(db, q), k);
    }
  }

  /** A diagnosis comes exactly when the species is known and some remaining
      candidate shares a symptom with the input. */
  lemma DiagnosisIff(db: Db, q: Query, transcribed: string, synth: string -> Option<string>)
    ensures Predict(db, q, transcribed, synth).Diagnosis? <==>
      SpeciesKnown(db, q) && exists x :: x in CandidatesOf(db, q) && Overlaps(Symptoms(db, q), x)
  {
    PredictNoMatch(db, q, transcribed, synth);
    FailuresDistinct(transcribed, synth);
  }

  /** Without any symptom the service never diagnoses. */
  lemma NoSymptomsNoDiagnosis(db: Db, q: Query, transcribed: string, synth: string -> Option<string>)
    requires !Supplied(q.symptom1) && !Supplied(q.symptom2) && !Supplied(q.symptom3)
    ensures Predict(db, q, transcribed, synth).Failure?
  {
    var slots := [q.symptom1, q.symptom2, q.symptom3];
    assert slots[1..] == [q.symptom2, q.symptom3] && slots[1..][1..] == [q.symptom3];
    assert [q.symptom3][1..] == [];
    assert Detected(db.toEnglish, [q.symptom3]) == [];
    assert Detected(db.toEnglish, [q.symptom2, q.symptom3]) == [];
    assert Symptoms(db, q) == [];
    var cands := CandidatesOf(db, q);
    if |cands| > 0 {
      NoSymptomsChooseFirst(cands);
    }
  }

  /** A row of the sample table with the given species and one symptom cell. */
  function SampleRow(animal: string, symptom: string, disease: string): Record {
    Record(Some(animal), Some("Jersey"), Some("3"), Some("Female"), Some(symptom), None, None,
           disease, Some("Antipyretic injection"), Some("Clean water"), None, "5", "Yes")
  }

  /** The sample cow row is of species "cow", whatever the letter case. */
  lemma CowIsCow()
    ensures Matches(Species("cow"), SampleRow("Cow", "fever, lethargy", "Viral Fever"))
  {
    assert Text.Lower("Cow") == "cow";
  }

  /** The input symptom "fever" hits the cow row's first symptom cell. */
  lemma FeverHitsCow()
    ensures Overlaps(["fever"], SampleRow("Cow", "fever, lethargy", "Viral Fever"))
  {
    var cow := SampleRow("Cow", "fever, lethargy", "Viral Fever");
    assert Text.Lower("fever, lethargy") == "fever, lethargy";
    assert Text.Lower("fever") == "fever";
    assert OccursAt(RowSymptoms(cow)[0], "fever", 0);
    var ds := ["fever"];
    assert Hit(ds[0], RowSymptoms(cow), 0);
  }

  /** The English word "fever" resolves to itself; the empty fields are dropped. */
  lemma FeverResolves()
    ensures Detected(FromEntries(SymptomEntries), [Some("fever"), None, None]) == ["fever"]
  {
    FromEntriesLastWins(SymptomEntries, "fever", 5);
    var slots: seq<Option<string>> := [Some("fever"), None, None];
    assert slots[1..] == [None, None] && slots[1..][1..] == [None];
  }

  /** Only the cow row is left after filtering a one-cow table by "cow". */
  lemma CowCandidates(db: Db, q: Query)
    requires db.rows == [SampleRow("Cow", "fever, lethargy", "Viral Fever")]
    requires q == Query("cow", None, None, None, Some("fever"), None, None)
    ensures CandidatesOf(db, q) == db.rows
  {
    CowIsCow();
    assert OptionalCriteria(None, None, None) == [];
    var species := Keep(db.rows, Species("cow"));
    assert db.rows[1..] == [];
    assert species == db.rows;
  }

  /** Scenario: the table holds one cow whose first symptom cell reads
      "fever, lethargy"; a request about a cow with fever is answered with
      that cow row, rendered. */
  lemma CowWithFever(synth: string -> Option<string>)
    ensures var cow := SampleRow("Cow", "fever, lethargy", "Viral Fever");
            var db := Db([cow], FromEntries(SymptomEntries), FromEntries(OutputEntries));
            var q := Query("cow", None, None, None, Some("fever"), None, None);
            Predict(db, q, "", synth) == Format(db.toTamil, cow, "", synth)
  {
    var cow := SampleRow("Cow", "fever, lethargy", "Viral Fever");
    var db := Db([cow], FromEntries(SymptomEntries), FromEntries(OutputEntries));
    var q := Query("cow", None, None, None, Some("fever"), None, None);
    CowCandidates(db, q);
    FeverResolves();
    assert Symptoms(db, q) == ["fever"];
    FeverHitsCow();
    var choice := SelectBest([cow], ["fever"]);
    assert choice.best == Some(0);
    assert choice.maxScore > 0;
  }

  /** Scenario: a species absent from the table gets the "not in the
      database" reply, not an error. */
  lemma DogNotInTable(synth: string -> Option<string>)
    ensures var cow := SampleRow("Cow", "fever, lethargy", "Viral Fever");
            var db := Db([cow], FromEntries(SymptomEntries), FromEntries(OutputEntries));
            var q := Query("Dog", None, None, None, Some("fever"), None, None);
            Predict(db, q, "", synth) == NotFound("", synth)
  {
    var cow := SampleRow("Cow", "fever, lethargy", "Viral Fever");
    assert Text.Lower("Cow")[0] != Text.Lower("Dog")[0];
    assert !Matches(Species("Dog"), cow);
  }
}

=== FILE: scoring.dfy ===
/** Step 3 of `predict`: every candidate row is scored by symptom overlap and
    the first row reaching the highest score is chosen. */
module Scoring {
  import opened Options
  import opened Text
  import opened Table

  /** `row_symptoms`: the three symptom cells, stringified and lowered. */
  function RowSymptoms(r: Record): (slots: seq<string>)
    ensures |slots| == 3
    ensures slots[0] == Lower(Str(r.symptom1))
    ensures slots[1] == Lower(Str(r.symptom2))
    ensures slots[2] == Lower(Str(r.symptom3))
  {
    [Lower(Str(r.symptom1)), Lower(Str(r.symptom2)), Lower(Str(r.symptom3))]
  }

  /** Input symptom `d` hits slot `j` of `slots` when its lowered form is a
      substring of that slot. */
  predicate Hit(d: string, slots: seq<string>, j: int) {
    0 <= j < |slots| && Contains(slots[j], Lower(d))
  }

  /** The positions of the slots that `d` hits. */
  ghost function HitSlots(d: string, slots: seq<string>): set<int> {
    set j | 0 <= j < |slots| && Hit(d, slots, j)
  }

  /** The inner loop over `row_symptoms`: one more for every slot the input
      symptom hits, so the result is the number of slots it hits. */
  function Hits(d: string, slots: seq<string>): (n: nat)
    ensures n == |HitSlots(d, slots)|
    ensures n <= |slots|
    ensures n > 0 <==> exists j :: Hit(d, slots, j)
    decreases |slots|
  {
    if |slots| == 0 then
      assert HitSlots(d, slots) == {};
      0
    else
      var k := |slots| - 1;
      var init := slots[..k];
      var before := Hits(d, init);
      assert forall j :: 0 <= j < k ==> init[j] == slots[j];
      assert HitSlots(d, slots) == HitSlots(d, init) + (if Hit(d, slots, k) then {k} else {});
      assert (exists j :: Hit(d, slots, j)) <==> HitSlots(d, slots) != {} by {
        if exists j :: Hit(d, slots, j) {
          var j :| Hit(d, slots, j);
          assert j in HitSlots(d, slots);
        }
      }
      assert (exists j :: Hit(d, init, j)) <==> HitSlots(d, init) != {} by {
        if HitSlots(d, init) != {} {
          var j :| j in HitSlots(d, init);
          assert Hit(d, init, j);
        }
      }
      before + (if Contains(slots[k], Lower(d)) then 1 else 0)
  }

  /** Some input symptom hits some slot of `r`. */
  ghost predicate Overlaps(ds: seq<string>, r: Record) {
    exists i, j :: 0 <= i < |ds| && Hit(ds[i], RowSymptoms(r), j)
  }

  /** The (input symptom, slot) position pairs in which the symptom hits the slot. */
  ghost function HitPairs(ds: seq<string>, r: Record): set<(int, int)> {
    set i, j | 0 <= i < |ds| && 0 <= j < 3 && Hit(ds[i], RowSymptoms(r), j) :: (i, j)
  }

  /** Pairing a fixed first component with each element keeps the count. */
  lemma {:induction false} PairWithCard(i: int, js: set<int>)
    ensures |set j | j in js :: (i, j)| == |js|
    decreases |js|
  {
    if js != {} {
      // Names a witness of `js != {}` for the verifier, which otherwise does
      // not find one for the `:|` below.
      if forall y :: y !in js { assert false; }
      var x :| x in js;
      PairWithCard(i, js - {x});
      assert (set j | j in js :: (i, j)) == (set j | j in js - {x} :: (i, j)) + {(i, x)};
    }
  }

  /** The pairs of all symptoms are those of the symptoms before the last,
      together with the last symptom's hit slots. */
  lemma HitPairsSplit(ds: seq<string>, r: Record)
    requires |ds| > 0
    ensures |HitPairs(ds, r)| == |HitPairs(ds[..|ds| - 1], r)| + |HitSlots(ds[|ds| - 1], RowSymptoms(r))|
  {
    var k := |ds| - 1;
    var init := ds[..k];
    var slots := RowSymptoms(r);
    var last := set j | j in HitSlots(ds[k], slots) :: (k, j);
    assert forall i :: 0 <= i < k ==> init[i] == ds[i];
    assert HitPairs(ds, r) == HitPairs(init, r) + last;
    assert HitPairs(init, r) * last == {};
    PairWithCard(k, HitSlots(ds[k], slots));
  }

  /** A row's score, accumulated symptom by symptom as the outer loop does:
      the number of (input symptom, row slot) pairs in which the lowered
      input is a substring of the slot. It is at most three per input
      symptom, and positive exactly when some pair hits. */
  function Score(ds: seq<string>, r: Record): (n: nat)
    ensures n == |HitPairs(ds, r)|
    ensures n <= 3 * |ds|
    ensures n > 0 <==> Overlaps(ds, r)
    decreases |ds|
  {
    if |ds| == 0 then
      assert HitPairs(ds, r) == {};
      0
    else
      var k := |ds| - 1;
      var before := Score(ds[..k], r);
      HitPairsSplit(ds, r);
      assert Overlaps(ds, r) <==> HitPairs(ds, r) != {} by {
        if Overlaps(ds, r) {
          var i, j :| 0 <= i < |ds| && Hit(ds[i], RowSymptoms(r), j);
          assert (i, j) in HitPairs(ds, r);
        }
        if HitPairs(ds, r) != {} {
          var p :| p in HitPairs(ds, r);
          assert Hit(ds[p.0], RowSymptoms(r), p.1);
        }
      }
      before + Hits(ds[k], RowSymptoms(r))
  }

  /** The score is a sum over input symptoms: scoring two groups of symptoms
      together adds their separate scores. */
  lemma {:induction false} ScoreAppend(a: seq<string>, b: seq<string>, r: Record)
    ensures Score(a + b, r) == Score(a, r) + Score(b, r)
    decreases |b|
  {
    if |b| > 0 {
      var k := |b| - 1;
      assert (a + b)[..|a + b| - 1] == a + b[..k];
      assert (a + b)[|a + b| - 1] == b[k];
      ScoreAppend(a, b[..k], r);
    } else {
      assert a + b == a;
    }
  }

  /** The score of every row, in row order. */
  function Scores(rows: seq<Record>, ds: seq<string>): (s: seq<nat>)
    ensures |s| == |rows|
    ensures forall j :: 0 <= j < |rows| ==> s[j] == Score(ds, rows[j])
  {
    seq(|rows|, j requires 0 <= j < |rows| => Score(ds, rows[j]))
  }

  /** Position `k` holds the first maximum of `s[..n]`. */
  ghost predicate FirstMaxUpTo(s: seq<int>, n: int, k: int) {
    0 <= k < n <= |s|
    && (forall j :: 0 <= j < n ==> s[j] <= s[k])
    && (forall j :: 0 <= j < k ==> s[j] < s[k])
  }

  /** Row `k` is the first row with the highest score. */
  ghost predicate FirstBest(rows: seq<Record>, ds: seq<string>, k: int) {
    FirstMaxUpTo(Scores(rows, ds), |rows|, k)
  }

  /** There is only one first maximum, so the choice is determined. */
  lemma FirstMaxUnique(s: seq<int>, k1: int, k2: int)
    requires FirstMaxUpTo(s, |s|, k1) && FirstMaxUpTo(s, |s|, k2)
    ensures k1 == k2
  {
    var s1, s2 := s[k1], s[k2];
    assert s1 == s2;
  }

  /** `best_match` as a row position, and `max_score`. */
  datatype Choice = Choice(best: Option<nat>, maxScore: int)

  /** The loop's state after visiting `s[..i]`: nothing chosen and −1 before
      the first row; afterwards the first maximum so far and its value. */
  ghost predicate ScanState(s: seq<nat>, i: int, c: Choice) {
    0 <= i <= |s|
    && (i == 0 ==> c == Choice(None, -1))
    && (i > 0 ==> c.best.Some? && FirstMaxUpTo(s, i, c.best.value) && c.maxScore == s[c.best.value])
  }

  /** One iteration of the loop keeps its state description true. */
  lemma ScanStep(s: seq<nat>, i: nat, c: Choice)
    requires ScanState(s, i, c) && i < |s|
    ensures s[i] > c.maxScore ==> ScanState(s, i + 1, Choice(Some(i), s[i]))
    ensures s[i] <= c.maxScore ==> ScanState(s, i + 1, c)
  {
  }

  /** The loop over `animal_df.iterrows()` from row `i` on, given the rows'
      scores: a row replaces the best only when its score is strictly greater. */
  function Scan(s: seq<nat>, i: nat, c: Choice): (r: Choice)
    requires ScanState(s, i, c)
    ensures ScanState(s, |s|, r)
    decreases |s| - i
  {
    if i == |s| then c
    else
      ScanStep(s, i, c);
      if s[i] > c.maxScore then Scan(s, i + 1, Choice(Some(i), s[i]))
      else Scan(s, i + 1, c)
  }

  /** `best_match` and `max_score` after the loop. With no rows nothing is
      chosen and the maximum stays −1; otherwise a row is always chosen, it is
      the first one with the highest score, and the maximum is its score. */
  function SelectBest(rows: seq<Record>, ds: seq<string>): (c: Choice)
    ensures |rows| == 0 ==> c == Choice(None, -1)
    ensures |rows| > 0 ==> c.best.Some? && FirstBest(rows, ds, c.best.value)
    ensures |rows| > 0 ==> c.maxScore == Score(ds, rows[c.best.value]) && c.maxScore >= 0
  {
    Scan(Scores(rows, ds), 0, Choice(None, -1))
  }

  /** The highest score is zero exactly when no candidate shares a symptom
      with the input. */
  lemma NoOverlapIffZero(rows: seq<Record>, ds: seq<string>)
    requires |rows| > 0
    ensures SelectBest(rows, ds).maxScore == 0 <==> forall j :: 0 <= j < |rows| ==> !Overlaps(ds, rows[j])
  {
    var c := SelectBest(rows, ds);
    var k := c.best.value;
    var s := Scores(rows, ds);
    if c.maxScore == 0 {
      forall j | 0 <= j < |rows| ensures !Overlaps(ds, rows[j]) {
        assert s[j] <= s[k];
      }
    } else {
      assert Overlaps(ds, rows[k]);
    }
  }

  /** With no input symptoms every row scores zero and the first row is chosen. */
  lemma NoSymptomsChooseFirst(rows: seq<Record>)
    requires |rows| > 0
    ensures SelectBest(rows, []) == Choice(Some(0), 0)
  {
    var c := SelectBest(rows, []);
    var s := Scores(rows, []);
    assert FirstMaxUpTo(s, |s|, 0);
    FirstMaxUnique(s, c.best.value, 0);
  }

  /** A missing symptom cell is not empty for scoring: it reads "nan", so an
      input such as "an" hits each missing cell of a row. */
  lemma MissingCellsReadNan(r: Record)
    requires r.symptom1.None? && r.symptom2.None? && r.symptom3.None?
    ensures Score(["an"], r) == 3
  {
    assert Lower("nan") == "nan" && Lower("an") == "an";
    var slots := RowSymptoms(r);
    assert slots == ["nan", "nan", "nan"];
    assert Contains("nan", "an") by {
      assert OccursAt("nan", "an", 1);
    }
    assert ["an"][..0] == [];
    assert slots[..2] == ["nan", "nan"] && slots[..2][..1] == ["nan"] && slots[..2][..1][..0] == [];
    assert Hits("an", ["nan"]) == 1;
    assert Hits("an", ["nan", "nan"]) == 2;
    assert Hits("an", slots) == 3;
  }
}

=== FILE: table.dfy ===
/** One row of the disease table after the columns have been renamed at load
    time. A cell pandas reads as missing (NaN) is `None`. */
module Table {
  import opened Options

  datatype Record = Record(
    animal: Option<string>,
    breed: Option<string>,
    age: Option<string>,
    gender: Option<string>,
    symptom1: Option<string>,
    symptom2: Option<string>,
    symptom3: Option<string>,
    disease: string,
    remedy1: Option<string>,   // the `medicine` column
    remedy2: Option<string>,   // the `care_1` column
    remedy3: Option<string>,   // the `care_2` column
    recoveryDays: string,      // stringified when the table is loaded
    vetRequired: string        // "Yes" for every row when the column is absent
  )

  /** Python's `str()` of a cell: a missing value prints as "nan". */
  function Str(cell: Option<string>): (s: string)
    ensures cell.Some? ==> s == cell.value
    ensures cell.None? ==> s == "nan"
  {
    cell.GetOr("nan")
  }

  /** Python truthiness of an optional form field: sent and not empty. */
  predicate Supplied(field: Option<string>) {
    field.Some? && field.value != ""
  }
}

=== FILE: text.dfy ===
/** String helpers with the meaning Python gives them: `str.lower`, the `in`
    substring test and `str.join`. */
module Text {

  /** `str.lower` on one character, restricted to the ASCII letters. */
  function LowerChar(c: char): char {
    if 'A' <= c <= 'Z' then (c as int - 'A' as int + 'a' as int) as char else c
  }

  /** `s.lower()`: every ASCII capital replaced by its small letter, the rest kept. */
  function Lower(s: string): (r: string)
    ensures |r| == |s|
    ensures forall i :: 0 <= i < |s| ==> r[i] == LowerChar(s[i])
  {
    seq(|s|, i requires 0 <= i < |s| => LowerChar(s[i]))
  }

  /** Lowering twice is lowering once, so comparing lowered values is an
      equivalence on strings. */
  lemma LowerIdempotent(s: string)
    ensures Lower(Lower(s)) == Lower(s)
  {
  }

  /** `needle` starts at position `i` of `hay`. */
  predicate OccursAt(hay: string, needle: string, i: int) {
    0 <= i && i + |needle| <= |hay| && hay[i..i + |needle|] == needle
  }

  /** Python's `needle in hay` for strings, computed by sliding a window
      over `hay`; true exactly when `needle` starts at some position. */
  function Contains(hay: string, needle: string): (b: bool)
    ensures b <==> exists i :: OccursAt(hay, needle, i)
    decreases |hay|
  {
    if |needle| > |hay| then
      assert forall i :: !OccursAt(hay, needle, i);
      false
    else if hay[..|needle|] == needle then
      assert OccursAt(hay, needle, 0);
      true
    else
      var rest := Contains(hay[1..], needle);
      assert rest ==> exists i :: OccursAt(hay, needle, i) by {
        if rest {
          var i :| OccursAt(hay[1..], needle, i);
          assert hay[1..][i..i + |needle|] == hay[i + 1..i + 1 + |needle|];
          assert OccursAt(hay, needle, i + 1);
        }
      }
      assert (exists i :: OccursAt(hay, needle, i)) ==> rest by {
        if exists i :: OccursAt(hay, needle, i) {
          var i :| OccursAt(hay, needle, i);
          assert i != 0;
          assert hay[1..][i - 1..i - 1 + |needle|] == hay[i..i + |needle|];
          assert OccursAt(hay[1..], needle, i - 1);
        }
      }
      rest
  }

  /** `sep.join(items)`: no items give the empty text and one item gives
      itself; otherwise the text begins with the first item and ends with
      the last. */
  function Join(items: seq<string>, sep: string): (r: string)
    ensures |items| == 0 ==> r == ""
    ensures |items| == 1 ==> r == items[0]
    ensures |items| > 0 ==> OccursAt(r, items[0], 0)
    ensures |items| > 0 ==> OccursAt(r, items[|items| - 1], |r| - |items[|items| - 1]|)
    decreases |items|
  {
    if |items| == 0 then ""
    else if |items| == 1 then
      assert items[0][0..|items[0]|] == items[0];
      items[0]
    else
      var rest := Join(items[1..], sep);
      var r := items[0] + sep + rest;
      var last := items[|items| - 1];
      assert items[1..][|items[1..]| - 1] == last;
      assert r[..|items[0]|] == items[0];
      assert r[|r| - |last|..] == rest[|rest| - |last|..];
      r
  }

  /** Joining two non-empty lists is joining each and gluing the halves with
      one separator: the separator appears exactly between neighbours. */
  lemma {:induction false} JoinAppend(a: seq<string>, b: seq<string>, sep: string)
    requires |a| > 0 && |b| > 0
    ensures Join(a + b, sep) == Join(a, sep) + sep + Join(b, sep)
    decreases |a|
  {
    if |a| == 1 {
      assert (a + b)[1..] == b;
    } else {
      assert (a + b)[1..] == a[1..] + b;
      JoinAppend(a[1..], b, sep);
    }
  }
}
